=== FILE: README.md ===
# nitox transport layer, modelled in Dafny

This project models the transport layer of the nitox NATS client: the frame
codec that finds frame boundaries in the receive buffer, the dual TCP/TLS
transport with its upgrade after the server's first frame, the resilient
connection that turns a dropped socket into a run of "not ready" answers and
a reconnection, and the TLS configuration builders.

Everything is pure: connections, transports, framed streams and codecs are
immutable datatypes, and each operation returns the value it produces
together with the new state. Whatever the Rust code gets from outside is a
parameter:

- the protocol parser `Op::from_bytes` and serialiser `Op::into_bytes` (`parse`, `serialise`);
- the PKCS #12 and DER parsers of the TLS library (`TlsBackend`);
- TCP connect, the first read of a fresh stream, and the TLS handshake (`Network`);
- tokio's `Framed` send, flush and poll on each kind of socket (`Driver`);
- whether the state lock and the transport lock could be taken without waiting (two booleans per call);
- the completion of a spawned reconnection task (the `ReconnectDone` event). Its outcome is deliberately left unconstrained, so the lemmas about `Connection.Run` hold for every result a task could deliver, including one `Connection.ReconnectTask` would never produce: a TLS connection can end up on a plain transport through `ReconnectDone(Ok(FromTcp(s)))`. `Connection.ReconnectRebuildsTransport` covers the outcomes `Connection.ReconnectTask` actually produces.

Files and modules follow the source: `base.dfy` (shared types), `codec.dfy`
(`src/codec.rs`), `tls_config.dfy` and `net.dfy` (`src/net/mod.rs`; split in
two because the constructors need the connection type), `connection_inner.dfy`
(`src/net/connection_inner.rs`), `connection.dfy` (`src/net/connection.rs`).

Four behaviours of the code that are easy to misread:

- `first_op` returns a copy and never clears the stored frame.
- `reco!` writes `Disconnected`, but `reconnect()` writes `Reconnecting` before the reconnection future is even spawned. So `Disconnected` is never observable after a connection is up.
- A failed handshake propagates its error. No plaintext transport survives it.
- A successful reconnection replaces the transport but leaves the connection's stored first frame as it was.

## Model

| member | source | states |
|---|---|---|
| Codec.FirstDelimiter | src/codec.rs:38 | the result is the offset of the first space or tab in the slice, and it is None exactly when the slice holds neither |
| Codec.Decode | src/codec.rs:37-58 | with no delimiter past the cursor, decode reports nothing and moves the cursor to the buffer's end. With the first delimiter at absolute position j, the parser is given `buf[..j - cursor]`. Success returns the parser's frame and leaves the cursor untouched. Incomplete reports nothing and moves the cursor to the end. Any other parser error resets the cursor to 0 and is returned. The cursor always stays within the buffer |
| Codec.PendingDecodeIsIdempotent | src/codec.rs:44-56 | after a "nothing yet" that moved the cursor to the end, decoding the unchanged buffer again gives the same result and the same cursor |
| Codec.SuccessfulDecodeRepeats | src/codec.rs:42-43 | whenever the parser accepts the span before the delimiter (a frame or nothing to report), decode returns that answer with the cursor unchanged, so decoding the same buffer again repeats it. A corollary of `Codec.Decode`'s contract; that no bytes are consumed is built into `Codec.Decode`, which returns no buffer |
| Codec.IncompleteSkipsDelimiter | src/codec.rs:44-46 | counterexample: on [0x41, 0x20, 0x42] with a parser that always asks for more bytes, both decoders move the cursor to 3, past the delimiter at 1, so the cursor is no longer sound |
| Codec.DecodeKeepsCursorSound | src/codec.rs:53-56 | when no delimiter lies past a sound cursor, the cursor moved to the end is sound too: the bytes it skips hold no delimiter |
| Codec.AppendKeepsCursorSound | src/codec.rs:38 | appending received bytes never invalidates the already-scanned, delimiter-free prefix |
| Codec.ResumedScanFindsSameDelimiter | src/codec.rs:38 | scanning from a sound cursor finds the same first delimiter as scanning from the start |
| Codec.ResumedScanTruncatesVerb | src/codec.rs:38-42 | counterexample: after "PI" then "NG ", the as-written decoder gives the parser "PI". A scan from 0 and the corrected decoder both give "PING" |
| Codec.DecodeIntended | src/codec.rs:37-58 | corrected decoder: with the first delimiter at absolute position j past the cursor, the parser is given `buf[..j]` |
| Codec.IntendedDecodeIgnoresCursor | src/codec.rs:38-42 | with a sound cursor, the corrected decoder's result equals that of a scan from 0, so the cursor only saves work |
| Codec.Encode | src/codec.rs:21-30 | encode succeeds exactly when serialisation does. On success the old contents stay as a prefix and the serialisation follows them. On failure the buffer is unchanged and the serialiser's error is returned |
| Codec.EncodeKeepsOrder | src/codec.rs:28 | two encodes leave both frames' bytes in the order they were encoded |
| Codec.EncodeThenDecode | src/codec.rs:21-43 | a frame whose serialisation starts with a delimiter-free verb followed by a space or a tab, and whose verb the parser maps back to that frame is decoded again from the bytes encode wrote, by a fresh codec |
| TlsConfigs.IdentityOf | src/net/mod.rs:43-49 | Ok(None) when no identity is stored. Otherwise it succeeds exactly when the PKCS #12 parser accepts the stored archive and password, and it returns that parser's identity or error |
| TlsConfigs.RootCertOf | src/net/mod.rs:51-57 | Ok(None) when no root certificate is stored. Otherwise it succeeds exactly when the DER parser accepts the stored bytes, and it returns that parser's certificate or error |
| TlsConfigs.Pkcs12Identity | src/net/mod.rs:26-32 | fails exactly when the parser rejects the archive and password, with the parser's error. On success it stores them, keeps the root certificate, and `identity()` then yields the parsed identity |
| TlsConfigs.RootCertDer | src/net/mod.rs:35-41 | fails exactly when the parser rejects the bytes, with the parser's error. On success it stores them, keeps the identity, and `root_cert()` then yields the parsed certificate |
| TlsConfigs.BuildersValidateEagerly | src/net/mod.rs:24-41 | a chain of builder calls, from any starting configuration, fails exactly when some piece of its material is rejected. Every configuration it produces from a validated start has both accessors succeeding |
| TlsConfigs.DefaultChainsValidate | src/net/mod.rs:18-22 | the default config has neither identity nor root certificate, and every chain of builders started from it yields a config whose accessors cannot fail, so the `identity().unwrap()` and `root_cert().unwrap()` of the TLS upgrade (src/net/connection_inner.rs:37 and :41) cannot panic |
| ConnectionInner.FromTcp | src/net/connection_inner.rs:93-97 | a fresh socket becomes the TCP variant with a default codec at cursor 0, empty buffers and no first frame |
| ConnectionInner.FirstOp | src/net/connection_inner.rs:84-90 | the stored frame for the TLS variant, None for TCP |
| ConnectionInner.Dispatch | src/net/connection_inner.rs:99-128 | an operation runs on the framed stream of whichever variant is held. Its result is passed through, and the variant and the stored first frame are kept |
| ConnectionInner.StartSend | src/net/connection_inner.rs:103-108 | start_send delegates to the framed stream of either variant and keeps the variant and the stored first frame |
| ConnectionInner.PollComplete | src/net/connection_inner.rs:110-115 | poll_complete delegates to the framed stream of either variant and keeps the variant and the stored first frame |
| ConnectionInner.Poll | src/net/connection_inner.rs:122-127 | poll delegates to the framed stream of either variant and keeps the variant and the stored first frame |
| ConnectionInner.UpgradeAfterFirstOp | src/net/connection_inner.rs:60-75 | a non-TCP transport is returned unchanged. For TCP, the result fails exactly when the handshake does, with its error. Otherwise it is the TLS variant on the handshake's socket, holding the frame just read, with a fresh codec and the old read and write buffers moved over unchanged |
| ConnectionInner.ConnectAndUpgrade | src/net/connection_inner.rs:51-82 | a connect error propagates. Without a host the plain framed socket is returned and nothing is read. With a host, a first-read error propagates. Otherwise the result succeeds exactly when the handshake on the connected socket does, and it is the TLS variant on the encrypted socket holding the first frame with both buffers transplanted |
| ConnectionInner.ConnectedTransportIsFresh | src/net/connection_inner.rs:56-81 | a set-up yields TCP exactly when no host is given. The codec is at cursor 0 and well formed, and a TLS set-up's first frame is the one read before the upgrade |
| Connection.BeginReconnect | src/net/connection.rs:55 | reconnect() marks the state Reconnecting and touches nothing else |
| Connection.Reco | src/net/connection.rs:11-19 | after the macro the state is Reconnecting, and the transport and identity fields are unchanged |
| Connection.FinishReconnect | src/net/connection.rs:62-69 | a successful reconnection replaces the transport wholesale and sets Connected. A failed one changes nothing. The stored first frame is never refreshed |
| Connection.Guarded | src/net/connection.rs:77-96 | a busy state lock, a state other than Connected, or a busy transport lock gives "not ready" with no change. A reconnection starts exactly when the transport reports a disconnection, and then the answer is "not ready" and the state Reconnecting. Any other transport result passes through with the state unchanged |
| Connection.StartSend | src/net/connection.rs:77-96 | as Guarded, and every "not ready" the wrapper itself produces hands back the original item |
| Connection.PollComplete | src/net/connection.rs:98-117 | as Guarded, for flushing |
| Connection.Poll | src/net/connection.rs:124-143 | as Guarded, for receiving |
| Connection.Apply | src/net/connection.rs:73-143 | every event keeps the connection's identity fields, and the state only stays, goes from Connected to Reconnecting, or returns to Connected. Only a successful reconnection brings a connection back to Connected. While not Connected, nothing but such a success changes the connection |
| Connection.RunKeepsIdentity | src/net/connection.rs:30-49 | over any sequence of calls and reconnections, the address, host, TLS flag, TLS configuration and stored first frame never change |
| Connection.RunNeverRestsDisconnected | src/net/connection.rs:11-19 | once a connection is not Disconnected, no sequence of events leaves it Disconnected |
| Connection.NoSecondReconnectBeforeRecovery | src/net/connection.rs:55-65 | once a call has started a reconnection, no later send, flush or receive starts another one until a reconnection succeeds, because only a successful task writes Connected again |
| Connection.StalledConnectionIsInert | src/net/connection.rs:78-83 | a connection that is not Connected stays exactly as it is, transport included, until a reconnection succeeds, so a failed reconnection leaves it stuck |
| Connection.DisconnectThenRecover | src/net/connection.rs:132-137 | a receive that meets a disconnection answers "not ready" and starts reconnecting. Later calls change nothing, and a successful reconnection swaps in its transport and reconnects |
| Connection.ReconnectTask | src/net/connection.rs:57-61 | the task connects to the connection's own address and, with its own host name and TLS configuration, upgrades again. It fails exactly when the connect, the first read or the handshake on the connected socket fails, and a result is TLS exactly when a host is stored and always well formed |
| Connection.ReconnectRebuildsTransport | src/net/connection.rs:54-70 | a successful reconnection yields Connected on TLS exactly when the connection has a host. The codec is fresh, and the first frame from the original set-up is kept |
| Net.Connect | src/net/mod.rs:70-83 | connect fails exactly when the TCP connect does. Otherwise the connection is not TLS, has no host and no first frame, has the default TLS config, is Connected, and holds the fresh TCP transport |
| Net.ConnectTls | src/net/mod.rs:86-102 | connect_tls fails exactly when the set-up with the host does. Otherwise the connection is TLS, has the host and the given config, is Connected, and its first frame is the transport's |
| Net.TlsConnectionKeepsGreeting | src/net/mod.rs:86-102 | a TLS connection sits on a well-formed TLS transport and stores the server's pre-upgrade frame, which may be none. It keeps that frame through any sequence of calls and reconnections |

## Left out

- Real sockets and the TLS library: `connect_tcp`, `upgrade_tcp_to_tls` and the native_tls connector are foreign I/O. Their outcomes are the `Network` parameter.
- The `identity().unwrap()` and `root_cert().unwrap()` in `upgrade_tcp_to_tls` (src/net/connection_inner.rs:37, 41) are not modelled as panics. `TlsConfigs.DefaultChainsValidate` shows they cannot fire for a configuration built with the builders. A configuration whose fields are set directly is not covered.
- The `builder.build().unwrap()` in `upgrade_tcp_to_tls` (src/net/connection_inner.rs:45) can panic if the TLS library rejects the connector. The model does not represent that panic: the `Network.handshake` parameter only returns a result.
- `Op::from_bytes`, `Op::into_bytes`, `Identity::from_pkcs12` and `Certificate::from_der` are outside this model. Their outcomes are parameters.
- tokio's `Framed` (how it reads sockets, calls `decode` and `encode`, and applies backpressure) is outside this model. The `Driver` parameter supplies it. So the transport and connection modules never call `Codec.Decode` themselves.
- Locks, `Arc` sharing and `tokio_executor::spawn` are not modelled as concurrency. Lock availability is a per-call input, and a task's completion is an event. There is no explicit guard against a second reconnection task, but the state flag keeps a second one from starting before the first succeeds (`Connection.NoSecondReconnectBeforeRecovery`). The unconstrained `ReconnectDone` event over-approximates this: the model allows completions that no task in flight could deliver.
- `BytesMut` capacity management (`remaining_mut`, `reserve`) is not modelled, because only the buffer contents matter.
- Debug logging and the `Debug` impl of the TLS config are not modelled, because they have no effect on behaviour.
- `OpCodec::new` is not modelled separately, because it equals the default codec (`OpCodec(0)`).
- Codec.Decode: requires the cursor to lie within the buffer, because `buf[next_index..]` panics otherwise.
- Codec.Encode: takes no codec, because `encode` never reads or writes `next_index`.

## Findings

| source | as written | input that shows it | evidently intended | confidence | as-written member | corrected member |
|---|---|---|---|---|---|---|
| src/codec.rs:38-42 | the delimiter's offset is counted from `next_index` but is used as a prefix length from the start of the buffer | "PI" is decoded first, so the cursor moves to 2. Then "NG " arrives. The parser is given "PI", not "PING" | the parser receives the bytes up to the delimiter, `buf[..next_index + offset]` | high that the span is truncated; not executed | Codec.Decode | Codec.DecodeIntended |

`Codec.Decode` keeps the code's behaviour, and `Codec.ResumedScanTruncatesVerb`
exhibits the truncated span on the input above. `Codec.DecodeIntended` is the
corrected decoder, and `Codec.IntendedDecodeIgnoresCursor` proves that its
result no longer depends on where the scan resumed. None of the other
modules decodes frames itself, so the choice between the two does not affect
the transport or connection results.

On "more bytes needed" both decoders move the cursor to the end of the
buffer, past the delimiter they have just found (src/codec.rs:44-46).
`Codec.IncompleteSkipsDelimiter` shows this on [0x41, 0x20, 0x42]: the cursor
ends at 3 and is no longer sound, so `Codec.IntendedDecodeIgnoresCursor` does
not apply after such a call. The corrected decoder keeps this jump on purpose,
because src/codec.rs:44-46 treats "more bytes needed" exactly like "no
delimiter yet" (src/codec.rs:53-56).

A further observation, also not executed and not a table row: a successful
decode consumes nothing. The parser receives an immutable slice at
src/codec.rs:42, and `decode` never splits or advances the buffer, so a
framed reader would return the same frame again on its next call.
`Codec.SuccessfulDecodeRepeats` states this of the code as written. No
corrected decoder is given, because how many bytes a frame spans is known
only to the parser, which is outside this model.

=== FILE: base.dfy ===
/**
 Shared vocabulary of the transport layer: bytes, frames, the crate's error
 type, results, socket addresses, and the futures 0.1 readiness values that
 every `Sink`/`Stream` operation returns.
 */
module Base {

  /** One octet on the wire. */
  type byte = b: int | 0 <= b < 256

  datatype Option<+T> = None | Some(value: T)

  /** A protocol frame. Its grammar belongs to the protocol parser, which this
      layer never looks into, so a frame is known only by an opaque token. */
  datatype Op = Op(token: nat)

  /** The crate's error type, reduced to the cases the transport tells apart. */
  datatype Error =
    | ServerDisconnected(cause: nat)  // the peer or the socket went away
    | CommandError(code: nat)         // malformed frame, converted from the parser's error
    | IoError(code: nat)              // any other socket failure
    | TlsError(code: nat)             // bad certificate or identity, or a failed handshake

  datatype Result<+T> = Ok(value: T) | Err(error: Error)

  /** futures 0.1 `Async`: a value now, or "try again later". */
  datatype Async<+T> = Ready(value: T) | NotReady

  /** futures 0.1 `AsyncSink`: the item was taken, or it is handed back. */
  datatype AsyncSink = SinkReady | SinkNotReady(item: Op)

  /** A resolved server address; resolution happens elsewhere. */
  datatype SocketAddr = SocketAddr(ip: seq<byte>, port: nat)

  /** The one error the connection wrapper recovers from on its own. */
  predicate IsDisconnect<T>(r: Result<T>)
  {
    r.Err? && r.error.ServerDisconnected?
  }
}

=== FILE: codec.dfy ===
/**
 The frame codec (`OpCodec`). Decoding looks for the first space or tab at or
 after the scan cursor and hands the bytes before it to the protocol parser;
 encoding appends a frame's serialisation to the outgoing buffer.

 The parser (`Op::from_bytes`) and the serialiser (`Op::into_bytes`) belong to
 the protocol module and are parameters here.
 */
module Codec {
  import opened Base

  /** The decoder's only state: how far the receive buffer has already been
      scanned for a delimiter. The default codec starts at 0. */
  datatype OpCodec = OpCodec(nextIndex: nat)

  /** What the parser reports for the bytes it is given. */
  datatype ParseOutcome =
    | Parsed(op: Option<Op>)  // a frame, or nothing to report
    | Incomplete              // more bytes are needed
    | Malformed(code: nat)    // any other command error

  /** One call of `decode`: what it returns and the codec it leaves behind. */
  datatype Decoded = Decoded(result: Result<Option<Op>>, codec: OpCodec)

  /** One call of `encode`: what it returns and the outgoing buffer after it. */
  datatype Encoded = Encoded(result: Result<()>, dst: seq<byte>)

  /** The verb/argument separators of the protocol: space (0x20) and tab (0x09). */
  predicate IsDelimiter(b: byte)
  {
    b == 0x20 || b == 0x09
  }

  predicate NoDelimiter(s: seq<byte>)
  {
    forall i :: 0 <= i < |s| ==> !IsDelimiter(s[i])
  }

  /** `j` is the position of the first delimiter in `buf` at or after `from`. */
  predicate FirstDelimiterAt(buf: seq<byte>, from: nat, j: nat)
  {
    from <= j < |buf| && IsDelimiter(buf[j]) && NoDelimiter(buf[from..j])
  }

  /** Offset of the first delimiter in `s`, as `iter().position(..)` finds it. */
  function FirstDelimiter(s: seq<byte>): (r: Option<nat>)
    ensures r.None? <==> NoDelimiter(s)
    ensures r.Some? ==> FirstDelimiterAt(s, 0, r.value)
  {
    if |s| == 0 then None
    else if IsDelimiter(s[0]) then Some(0)
    else
      match FirstDelimiter(s[1..])
      case None => None
      case Some(k) =>
        assert s[1..][..k] == s[1..k + 1];
        Some(k + 1)
  }

  /** There is at most one first delimiter. */
  lemma FirstDelimiterUnique(buf: seq<byte>, from: nat, j: nat, j': nat)
    requires FirstDelimiterAt(buf, from, j) && FirstDelimiterAt(buf, from, j')
    ensures j == j'
  {
  }

  /** What the decoder does with the parser's verdict once a delimiter is found. */
  function OnParsed(outcome: ParseOutcome, codec: OpCodec, bufLen: nat): Decoded
  {
    match outcome
    case Parsed(op) => Decoded(Ok(op), codec)
    case Incomplete => Decoded(Ok(None), OpCodec(bufLen))
    case Malformed(code) => Decoded(Err(CommandError(code)), OpCodec(0))
  }

  /**
   `Decoder::decode` as written. The delimiter's offset is counted from the
   cursor, but the parser is given that many bytes from the START of the
   buffer: when the cursor is not 0 the parser sees a truncated verb. The
   buffer is only read, so no buffer is returned.
   */
  function Decode(codec: OpCodec, buf: seq<byte>, parse: seq<byte> -> ParseOutcome): (d: Decoded)
    requires codec.nextIndex <= |buf|
    ensures d.codec.nextIndex <= |buf|
    // no delimiter past the cursor: nothing yet, and never scan these bytes again
    ensures NoDelimiter(buf[codec.nextIndex..]) ==> d == Decoded(Ok(None), OpCodec(|buf|))
    // a delimiter at absolute position j: the parser gets buf[..j - cursor]
    ensures forall j: nat {:trigger FirstDelimiterAt(buf, codec.nextIndex, j)} ::
              FirstDelimiterAt(buf, codec.nextIndex, j) ==>
                match parse(buf[..j - codec.nextIndex])
                case Parsed(op) => d == Decoded(Ok(op), codec)
                case Incomplete => d == Decoded(Ok(None), OpCodec(|buf|))
                case Malformed(code) => d == Decoded(Err(CommandError(code)), OpCodec(0))
    // every error resets the scan; every success keeps or completes it
    ensures d.result.Err? ==> d.codec.nextIndex == 0 && d.result.error.CommandError?
    ensures d.result.Ok? ==> d.codec == codec || d.codec.nextIndex == |buf|
    ensures d.result.Ok? && d.result.value.Some? ==> d.codec == codec
  {
    var rest := buf[codec.nextIndex..];
    match FirstDelimiter(rest)
    case None => Decoded(Ok(None), OpCodec(|buf|))
    case Some(offset) =>
      assert FirstDelimiterAt(buf, codec.nextIndex, codec.nextIndex + offset) by {
        assert rest[..offset] == buf[codec.nextIndex..codec.nextIndex + offset];
      }
      forall j: nat | FirstDelimiterAt(buf, codec.nextIndex, j)
        ensures j - codec.nextIndex == offset
      {
        FirstDelimiterUnique(buf, codec.nextIndex, j, codec.nextIndex + offset);
      }
      OnParsed(parse(buf[..offset]), codec, |buf|)
  }

  /**
   The decoder as evidently intended: the parser is given every byte up to the
   delimiter, wherever the scan resumed.
   */
  function DecodeIntended(codec: OpCodec, buf: seq<byte>, parse: seq<byte> -> ParseOutcome): (d: Decoded)
    requires codec.nextIndex <= |buf|
    ensures d.codec.nextIndex <= |buf|
    ensures NoDelimiter(buf[codec.nextIndex..]) ==> d == Decoded(Ok(None), OpCodec(|buf|))
    ensures forall j: nat {:trigger FirstDelimiterAt(buf, codec.nextIndex, j)} ::
              FirstDelimiterAt(buf, codec.nextIndex, j) ==> d == OnParsed(parse(buf[..j]), codec, |buf|)
  {
    var rest := buf[codec.nextIndex..];
    match FirstDelimiter(rest)
    case None => Decoded(Ok(None), OpCodec(|buf|))
    case Some(offset) =>
      assert FirstDelimiterAt(buf, codec.nextIndex, codec.nextIndex + offset) by {
        assert rest[..offset] == buf[codec.nextIndex..codec.nextIndex + offset];
      }
      forall j: nat | FirstDelimiterAt(buf, codec.nextIndex, j)
        ensures j == codec.nextIndex + offset
      {
        FirstDelimiterUnique(buf, codec.nextIndex, j, codec.nextIndex + offset);
      }
      OnParsed(parse(buf[..codec.nextIndex + offset]), codec, |buf|)
  }

  /** The cursor is sound for `buf` when the bytes it has passed hold no delimiter. */
  predicate CursorSound(codec: OpCodec, buf: seq<byte>)
  {
    codec.nextIndex <= |buf| && NoDelimiter(buf[..codec.nextIndex])
  }

  /** Resuming a scan past delimiter-free bytes finds the same first delimiter
      as scanning from the start. */
  lemma ResumedScanFindsSameDelimiter(buf: seq<byte>, c: nat, j: nat)
    requires c <= |buf| && NoDelimiter(buf[..c])
    ensures FirstDelimiterAt(buf, 0, j) <==> FirstDelimiterAt(buf, c, j)
  {
  }

  /** When no delimiter lies past a sound cursor, decoding moves the cursor
      to the end of the buffer and it stays sound. */
  lemma DecodeKeepsCursorSound(codec: OpCodec, buf: seq<byte>, parse: seq<byte> -> ParseOutcome)
    requires CursorSound(codec, buf)
    ensures NoDelimiter(buf[codec.nextIndex..]) ==> CursorSound(Decode(codec, buf, parse).codec, buf)
  {
  }

  /**
   The cursor jump on "more bytes needed" is not sound: both decoders move the
   cursor to the end of the buffer, past the delimiter they just found, so a
   later call will not hand that span to the parser again.
   */
  lemma IncompleteSkipsDelimiter()
    ensures var buf: seq<byte> := [0x41, 0x20, 0x42];
            var parse := (s: seq<byte>) => Incomplete;
            && Decode(OpCodec(0), buf, parse) == Decoded(Ok(None), OpCodec(3))
            && DecodeIntended(OpCodec(0), buf, parse) == Decoded(Ok(None), OpCodec(3))
            && !CursorSound(OpCodec(3), buf)
  {
  }

  /** Appending bytes keeps a sound cursor sound: the scanned prefix is unchanged. */
  lemma AppendKeepsCursorSound(codec: OpCodec, buf: seq<byte>, more: seq<byte>)
    requires CursorSound(codec, buf)
    ensures CursorSound(codec, buf + more)
  {
  }

  /** With a sound cursor, the intended decoder reports exactly what a scan
      from the start would: the cursor only saves work. */
  lemma IntendedDecodeIgnoresCursor(codec: OpCodec, buf: seq<byte>, parse: seq<byte> -> ParseOutcome)
    requires CursorSound(codec, buf)
    ensures DecodeIntended(codec, buf, parse).result == DecodeIntended(OpCodec(0), buf, parse).result
  {
  }

  /** Decoding twice with no new bytes after a "nothing yet" that moved the
      cursor to the end gives the same answer and the same cursor. */
  lemma PendingDecodeIsIdempotent(codec: OpCodec, buf: seq<byte>, parse: seq<byte> -> ParseOutcome)
    requires codec.nextIndex <= |buf|
    requires Decode(codec, buf, parse).codec.nextIndex == |buf|
    requires Decode(codec, buf, parse).result == Ok(None)
    ensures Decode(Decode(codec, buf, parse).codec, buf, parse) == Decode(codec, buf, parse)
  {
  }

  /** Whenever the parser accepts the span before the delimiter (a frame or
      nothing to report), the cursor stays put, so the same buffer yields
      the same answer again. A corollary of `Decode`'s contract. */
  lemma SuccessfulDecodeRepeats(codec: OpCodec, buf: seq<byte>, parse: seq<byte> -> ParseOutcome, j: nat)
    requires codec.nextIndex <= |buf|
    requires FirstDelimiterAt(buf, codec.nextIndex, j)
    requires parse(buf[..j - codec.nextIndex]).Parsed?
    ensures Decode(codec, buf, parse) == Decoded(Ok(parse(buf[..j - codec.nextIndex]).op), codec)
    ensures Decode(Decode(codec, buf, parse).codec, buf, parse) == Decode(codec, buf, parse)
  {
  }

  /**
   Counterexample for the as-written decoder: "PI" arrives first, so the
   cursor moves to 2; then "NG " arrives. The delimiter sits at position 4 but
   the parser is given only "PI", so a parser that knows "PING" reports
   nothing, while a scan from 0 or the intended decoder yields the frame.
   */
  lemma ResumedScanTruncatesVerb()
    ensures var ping: seq<byte> := [0x50, 0x49, 0x4E, 0x47];
            var parse := (s: seq<byte>) => if s == ping then Parsed(Some(Op(1))) else Incomplete;
            var first := Decode(OpCodec(0), ping[..2], parse);
            var buf := ping + [0x20];
            && first == Decoded(Ok(None), OpCodec(2))
            && CursorSound(first.codec, buf)
            && Decode(first.codec, buf, parse).result == Ok(None)
            && Decode(OpCodec(0), buf, parse).result == Ok(Some(Op(1)))
            && DecodeIntended(first.codec, buf, parse).result == Ok(Some(Op(1)))
  {
    var ping: seq<byte> := [0x50, 0x49, 0x4E, 0x47];
    var parse := (s: seq<byte>) => if s == ping then Parsed(Some(Op(1))) else Incomplete;
    var buf := ping + [0x20];
    assert NoDelimiter(ping[..2][0..]);
    assert FirstDelimiterAt(buf, 2, 4) by {
      assert buf[2..4] == [0x4E, 0x47];
    }
    assert FirstDelimiterAt(buf, 0, 4) by {
      assert buf[0..4] == ping;
    }
    assert buf[..2] != ping;
    assert buf[..4] == ping;
  }

  /**
   `Encoder::encode`: serialise, then append. A serialisation failure returns
   before the buffer is touched. Capacity growth is not modelled; only the
   contents matter.
   */
  function Encode(item: Op, dst: seq<byte>, serialise: Op -> Result<seq<byte>>): (e: Encoded)
    ensures e.result.Ok? <==> serialise(item).Ok?
    ensures e.result.Err? ==> e.result.error == serialise(item).error && e.dst == dst
    ensures e.result.Ok? ==> |e.dst| == |dst| + |serialise(item).value|
    ensures e.result.Ok? ==> e.dst[..|dst|] == dst && e.dst[|dst|..] == serialise(item).value
  {
    match serialise(item)
    case Err(error) => Encoded(Err(error), dst)
    case Ok(bytes) => Encoded(Ok(()), dst + bytes)
  }

  /** Frames are written in the order they are encoded (FIFO on the wire). */
  lemma EncodeKeepsOrder(a: Op, b: Op, dst: seq<byte>, serialise: Op -> Result<seq<byte>>)
    requires serialise(a).Ok? && serialise(b).Ok?
    ensures Encode(b, Encode(a, dst, serialise).dst, serialise).dst
            == dst + serialise(a).value + serialise(b).value
  {
  }

  /**
   Round trip on a fresh codec: a frame whose serialisation starts with a
   delimiter-free verb, followed by a space or a tab, that the parser maps
   back to that frame is decoded again from the bytes `encode` produced.
   */
  lemma EncodeThenDecode(f: Op, verb: seq<byte>, sep: byte, args: seq<byte>,
                         serialise: Op -> Result<seq<byte>>, parse: seq<byte> -> ParseOutcome)
    requires IsDelimiter(sep)
    requires serialise(f) == Ok(verb + [sep] + args)
    requires NoDelimiter(verb)
    requires parse(verb) == Parsed(Some(f))
    ensures Decode(OpCodec(0), Encode(f, [], serialise).dst, parse) == Decoded(Ok(Some(f)), OpCodec(0))
  {
    var buf := Encode(f, [], serialise).dst;
    assert buf == verb + [sep] + args;
    assert buf[0..|verb|] == verb;
    assert FirstDelimiterAt(buf, 0, |verb|);
    assert buf[..|verb| - 0] == verb;
  }
}

=== FILE: connection.dfy ===
/**
 The resilient connection (`NatsConnection`): a `Sink`/`Stream` over a shared
 transport and a shared state flag. Every call first peeks at the state
 without blocking, then tries to lock the transport without blocking; a
 disconnection reported by the transport flips the state and starts a
 reconnection task, and the caller only sees "not ready".

 Lock availability is an input of each call, and the reconnection task's
 completion is a separate event, so no real concurrency is modelled.
 */
module Connection {
  import opened Base
  import opened TlsConfigs
  import opened ConnectionInner

  /** `NatsConnectionState`. */
  datatype State = Connected | Reconnecting | Disconnected

  datatype NatsConnection = NatsConnection(
    isTls: bool,
    addr: SocketAddr,
    host: Option<string>,       // only set for TLS connections
    firstOp: Option<Op>,        // the server's first frame, kept from a TLS set-up
    tlsConfig: TlsConfig,
    inner: Inner,               // behind its own lock, swapped by reconnection
    state: State)               // behind its own lock

  /** One `Sink`/`Stream` call: what it returns, the connection after it, and
      whether it started a reconnection task. */
  datatype Step<+R> = Step(result: Result<R>, conn: NatsConnection, reconnecting: bool)

  /** The fields a connection keeps for its whole life. */
  predicate SameIdentity(a: NatsConnection, b: NatsConnection)
  {
    && a.isTls == b.isTls
    && a.addr == b.addr
    && a.host == b.host
    && a.firstOp == b.firstOp
    && a.tlsConfig == b.tlsConfig
  }

  /** `reconnect()` marks the state before it builds the reconnection future. */
  function BeginReconnect(c: NatsConnection): (c': NatsConnection)
    ensures c'.state == Reconnecting && c'.inner == c.inner && SameIdentity(c, c')
  {
    c.(state := Reconnecting)
  }

  /**
   `reco!`: write `Disconnected`, then call `reconnect()`, which writes
   `Reconnecting` before returning the future to spawn. `Disconnected` is
   overwritten before anyone else can read the state.
   */
  function Reco(c: NatsConnection): (c': NatsConnection)
    ensures c'.state == Reconnecting
    ensures c'.inner == c.inner && SameIdentity(c, c')
  {
    BeginReconnect(c.(state := Disconnected))
  }

  /**
   The work of the spawned task: set up a transport like the original one,
   from the connection's own address, host name and TLS configuration. It
   fails exactly when the TCP connect fails or, for a TLS connection, the
   first read or the handshake with the stored configuration fails.
   */
  function ReconnectTask(c: NatsConnection, net: Network): (r: Result<Inner>)
    ensures net.connectTcp(c.addr).Err? ==> r == Err(net.connectTcp(c.addr).error)
    ensures net.connectTcp(c.addr).Ok? && c.host.None? ==> r == Ok(FromTcp(net.connectTcp(c.addr).value))
    ensures net.connectTcp(c.addr).Ok? && c.host.Some? ==>
              match net.firstFrame(FromTcp(net.connectTcp(c.addr).value).tcp)
              case ReadFailed(e) => r == Err(e)
              case Frame(_, _) =>
                (r.Ok? <==> net.handshake(c.host.value, net.connectTcp(c.addr).value, c.tlsConfig).Ok?)
    ensures r.Ok? ==> (r.value.Tls? <==> c.host.Some?) && WellFormed(r.value)
  {
    var r := ConnectAndUpgrade(c.host, c.addr, c.tlsConfig, net);
    if r.Ok? then ConnectedTransportIsFresh(c.host, c.addr, c.tlsConfig, net); r else r
  }

  /**
   Completion of the spawned reconnection: on success the transport is replaced wholesale and
   the state becomes `Connected`; a failure is only logged. The stored first
   frame is not refreshed.
   */
  function FinishReconnect(c: NatsConnection, outcome: Result<Inner>): (c': NatsConnection)
    ensures SameIdentity(c, c')
    ensures outcome.Ok? ==> c'.state == Connected && c'.inner == outcome.value
    ensures outcome.Err? ==> c' == c
  {
    match outcome
    case Ok(inner) => c.(inner := inner, state := Connected)
    case Err(_) => c
  }

  /** The state check at the top of every call: the lock was free and the state is `Connected`. */
  predicate Open(c: NatsConnection, stateLockFree: bool)
  {
    stateLockFree && c.state == Connected
  }

  /**
   The pattern shared by `start_send`, `poll_complete` and `poll`: check the
   state, try the transport lock, run `op` on the transport, and turn a
   disconnection into `reco!` plus `notReady`.
   */
  function Guarded<R>(c: NatsConnection, stateLockFree: bool, innerLockFree: bool,
                      op: Inner -> (Result<R>, Inner), notReady: R): (s: Step<R>)
    ensures SameIdentity(c, s.conn)
    ensures !(Open(c, stateLockFree) && innerLockFree) ==> s == Step(Ok(notReady), c, false)
    ensures s.reconnecting <==> Open(c, stateLockFree) && innerLockFree && IsDisconnect(op(c.inner).0)
    ensures s.reconnecting ==>
              s.result == Ok(notReady) && s.conn.state == Reconnecting && s.conn.inner == op(c.inner).1
    ensures !s.reconnecting ==> s.conn.state == c.state
    ensures Open(c, stateLockFree) && innerLockFree && !IsDisconnect(op(c.inner).0) ==>
              s.result == op(c.inner).0 && s.conn.inner == op(c.inner).1
  {
    if !Open(c, stateLockFree) || !innerLockFree then Step(Ok(notReady), c, false)
    else
      var (res, inner') := op(c.inner);
      var c' := c.(inner := inner');
      if IsDisconnect(res) then Step(Ok(notReady), Reco(c'), true)
      else Step(res, c', false)
  }

  /** `Sink::start_send`: the transport gets a clone of the item, so the
      original can be handed back whenever the call is not taken. */
  function StartSend(c: NatsConnection, item: Op, stateLockFree: bool, innerLockFree: bool, d: Driver): (s: Step<AsyncSink>)
    ensures SameIdentity(c, s.conn) && FirstOp(s.conn.inner) == FirstOp(c.inner)
    ensures !(Open(c, stateLockFree) && innerLockFree) ==> s == Step(Ok(SinkNotReady(item)), c, false)
    ensures Open(c, stateLockFree) && innerLockFree ==>
              var inner := ConnectionInner.StartSend(c.inner, item, d);
              && (s.reconnecting <==> IsDisconnect(inner.0))
              && (s.reconnecting ==> s.result == Ok(SinkNotReady(item)) && s.conn.state == Reconnecting)
              && (!s.reconnecting ==> s.result == inner.0 && s.conn.state == Connected)
              && s.conn.inner == inner.1
  {
    Guarded(c, stateLockFree, innerLockFree, i => ConnectionInner.StartSend(i, item, d), SinkNotReady(item))
  }

  /** `Sink::poll_complete`. */
  function PollComplete(c: NatsConnection, stateLockFree: bool, innerLockFree: bool, d: Driver): (s: Step<Async<()>>)
    ensures SameIdentity(c, s.conn) && FirstOp(s.conn.inner) == FirstOp(c.inner)
    ensures !(Open(c, stateLockFree) && innerLockFree) ==> s == Step(Ok(NotReady), c, false)
    ensures Open(c, stateLockFree) && innerLockFree ==>
              var inner := ConnectionInner.PollComplete(c.inner, d);
              && (s.reconnecting <==> IsDisconnect(inner.0))
              && (s.reconnecting ==> s.result == Ok(NotReady) && s.conn.state == Reconnecting)
              && (!s.reconnecting ==> s.result == inner.0 && s.conn.state == Connected)
              && s.conn.inner == inner.1
  {
    Guarded(c, stateLockFree, innerLockFree, i => ConnectionInner.PollComplete(i, d), NotReady)
  }

  /** `Stream::poll`. */
  function Poll(c: NatsConnection, stateLockFree: bool, innerLockFree: bool, d: Driver): (s: Step<Async<Option<Op>>>)
    ensures SameIdentity(c, s.conn) && FirstOp(s.conn.inner) == FirstOp(c.inner)
    ensures !(Open(c, stateLockFree) && innerLockFree) ==> s == Step(Ok(NotReady), c, false)
    ensures Open(c, stateLockFree) && innerLockFree ==>
              var inner := ConnectionInner.Poll(c.inner, d);
              && (s.reconnecting <==> IsDisconnect(inner.0))
              && (s.reconnecting ==> s.result == Ok(NotReady) && s.conn.state == Reconnecting)
              && (!s.reconnecting ==> s.result == inner.0 && s.conn.state == Connected)
              && s.conn.inner == inner.1
  {
    Guarded(c, stateLockFree, innerLockFree, i => ConnectionInner.Poll(i, d), NotReady)
  }

  /** Something that can happen to a connection: one of its three calls, or
      the completion of a reconnection task. */
  datatype Event =
    | Send(item: Op, stateLockFree: bool, innerLockFree: bool)
    | Flush(stateLockFree: bool, innerLockFree: bool)
    | Receive(stateLockFree: bool, innerLockFree: bool)
    | ReconnectDone(outcome: Result<Inner>)

  /** The transitions of the state flag: stay, lose the transport while
      connected, or come back through a successful reconnection. */
  predicate Allowed(from: State, to: State)
  {
    from == to || (from == Connected && to == Reconnecting) || to == Connected
  }

  function Apply(c: NatsConnection, e: Event, d: Driver): (c': NatsConnection)
    ensures SameIdentity(c, c')
    ensures Allowed(c.state, c'.state)
    ensures c'.state == Connected && c.state != Connected ==> e.ReconnectDone? && e.outcome.Ok?
    ensures c.state != Connected && !(e.ReconnectDone? && e.outcome.Ok?) ==> c' == c
  {
    match e
    case Send(item, s, i) => StartSend(c, item, s, i, d).conn
    case Flush(s, i) => PollComplete(c, s, i, d).conn
    case Receive(s, i) => Poll(c, s, i, d).conn
    case ReconnectDone(outcome) => FinishReconnect(c, outcome)
  }

  function Run(c: NatsConnection, events: seq<Event>, d: Driver): NatsConnection
    decreases |events|
  {
    if |events| == 0 then c else Run(Apply(c, events[0], d), events[1..], d)
  }

  /** No event succeeds in reconnecting. */
  predicate NoRecovery(events: seq<Event>)
  {
    forall i :: 0 <= i < |events| ==> !(events[i].ReconnectDone? && events[i].outcome.Ok?)
  }

  /** Address, host, TLS flag and configuration, and the stored first frame
      never change, whatever happens to the transport. */
  lemma {:induction false} RunKeepsIdentity(c: NatsConnection, events: seq<Event>, d: Driver)
    ensures SameIdentity(c, Run(c, events, d))
    decreases |events|
  {
    if |events| > 0 {
      RunKeepsIdentity(Apply(c, events[0], d), events[1..], d);
    }
  }

  /** `Disconnected` is never observable once a connection is up. The lock
      taken to write it is released before `reconnect()` writes
      `Reconnecting`, but the only readers of the state are the connection's
      own calls, which take it exclusively and are still inside `reco!`. */
  lemma {:induction false} RunNeverRestsDisconnected(c: NatsConnection, events: seq<Event>, d: Driver)
    requires c.state != Disconnected
    ensures Run(c, events, d).state != Disconnected
    decreases |events|
  {
    if |events| > 0 {
      RunNeverRestsDisconnected(Apply(c, events[0], d), events[1..], d);
    }
  }

  /**
   A connection that is not `Connected` stays exactly as it is, transport
   included, until a reconnection succeeds: a failed reconnection leaves it
   stuck, and every call meanwhile is a side-effect-free "not ready".
   */
  lemma {:induction false} StalledConnectionIsInert(c: NatsConnection, events: seq<Event>, d: Driver)
    requires c.state != Connected
    requires NoRecovery(events)
    ensures Run(c, events, d) == c
    decreases |events|
  {
    if |events| > 0 {
      assert !(events[0].ReconnectDone? && events[0].outcome.Ok?);
      assert NoRecovery(events[1..]) by {
        forall i | 0 <= i < |events[1..]|
          ensures !(events[1..][i].ReconnectDone? && events[1..][i].outcome.Ok?)
        {
          assert events[1..][i] == events[i + 1];
        }
      }
      StalledConnectionIsInert(c, events[1..], d);
    }
  }

  /**
   At most one reconnection task is started per lost transport: once a call
   has started one, no later call starts another until a reconnection
   succeeds, because the state is no longer `Connected`.
   */
  lemma NoSecondReconnectBeforeRecovery(c: NatsConnection, stateLockFree: bool, innerLockFree: bool, d: Driver,
                                        later: seq<Event>, stateLockFree': bool, innerLockFree': bool, item: Op)
    requires Poll(c, stateLockFree, innerLockFree, d).reconnecting
    requires NoRecovery(later)
    ensures var c' := Run(Poll(c, stateLockFree, innerLockFree, d).conn, later, d);
            && !Poll(c', stateLockFree', innerLockFree', d).reconnecting
            && !PollComplete(c', stateLockFree', innerLockFree', d).reconnecting
            && !StartSend(c', item, stateLockFree', innerLockFree', d).reconnecting
  {
    StalledConnectionIsInert(Poll(c, stateLockFree, innerLockFree, d).conn, later, d);
  }

  /**
   The recovery cycle: a receive that meets a disconnection reports "not
   ready" and leaves the connection `Reconnecting`; every call is then
   turned away untouched until a reconnection succeeds, which swaps in its
   transport and makes the connection `Connected` again.
   */
  lemma DisconnectThenRecover(c: NatsConnection, d: Driver, later: seq<Event>, replacement: Inner)
    requires c.state == Connected
    requires IsDisconnect(ConnectionInner.Poll(c.inner, d).0)
    requires NoRecovery(later)
    ensures var s := Poll(c, true, true, d);
            && s.result == Ok(NotReady)
            && s.reconnecting
            && s.conn.state == Reconnecting
            && Run(s.conn, later, d) == s.conn
            && Apply(Run(s.conn, later, d), ReconnectDone(Ok(replacement)), d)
               == s.conn.(inner := replacement, state := Connected)
  {
    var s := Poll(c, true, true, d);
    StalledConnectionIsInert(s.conn, later, d);
  }

  /**
   A reconnection after a lost TLS connection upgrades again (a plain one
   stays plain), starts with a fresh codec, and keeps the first frame stored
   by the original set-up rather than the one read by the new upgrade.
   */
  lemma ReconnectRebuildsTransport(c: NatsConnection, net: Network)
    requires ReconnectTask(c, net).Ok?
    ensures var c' := FinishReconnect(c, ReconnectTask(c, net));
            && c'.state == Connected
            && (c'.inner.Tls? <==> c.host.Some?)
            && WellFormed(c'.inner)
            && c'.firstOp == c.firstOp
  {
  }
}

=== FILE: connection_inner.dfy ===
/**
 The dual transport (`NatsConnectionInner`): a framed plain TCP stream, or a
 framed TLS stream that also carries the first frame read before the upgrade.
 Sending, flushing and receiving dispatch to the framed stream of either
 variant; the upgrade moves the unconsumed buffers onto the encrypted socket.

 The socket operations themselves (TCP connect, the first read, the TLS
 handshake, and tokio's `Framed` send/flush/poll) are parameters here.
 */
module ConnectionInner {
  import opened Base
  import opened Codec
  import opened TlsConfigs

  /** Socket handles; their behaviour lives entirely in the parameters below. */
  datatype TcpStream = TcpStream(fd: nat)
  datatype TlsStream = TlsStream(fd: nat, session: nat)

  /** tokio's `Framed`: the socket, its codec, the bytes received but not yet
      decoded, and the bytes encoded but not yet flushed. */
  datatype Framed<Io> = Framed(io: Io, codec: OpCodec, readBuf: seq<byte>, writeBuf: seq<byte>)

  datatype Inner =
    | Tcp(tcp: Framed<TcpStream>)
    | Tls(tls: Framed<TlsStream>, pending: Option<Op>)

  /** tokio's `Framed` operations for one kind of socket. */
  datatype FramedDriver<!Io> = FramedDriver(
    startSend: (Framed<Io>, Op) -> (Result<AsyncSink>, Framed<Io>),
    pollComplete: Framed<Io> -> (Result<Async<()>>, Framed<Io>),
    poll: Framed<Io> -> (Result<Async<Option<Op>>>, Framed<Io>))

  datatype Driver = Driver(tcp: FramedDriver<TcpStream>, tls: FramedDriver<TlsStream>)

  /** The first frame read off a fresh plain stream (`into_future`), or the read
      error. `into_future` hands back the same socket, so only the buffers of
      `rest` are taken from it. */
  datatype FirstFrame = Frame(op: Option<Op>, rest: Framed<TcpStream>) | ReadFailed(error: Error)

  /** The network as seen by connection set-up. */
  datatype Network = Network(
    connectTcp: SocketAddr -> Result<TcpStream>,
    firstFrame: Framed<TcpStream> -> FirstFrame,
    handshake: (string, TcpStream, TlsConfig) -> Result<TlsStream>)

  /** Same variant, and for TLS the same pending first frame. */
  predicate SameShape(a: Inner, b: Inner)
  {
    (a.Tcp? && b.Tcp?) || (a.Tls? && b.Tls? && a.pending == b.pending)
  }

  /** A codec whose cursor lies inside its receive buffer, so `decode` cannot panic. */
  predicate WellFormed(inner: Inner)
  {
    match inner
    case Tcp(f) => f.codec.nextIndex <= |f.readBuf|
    case Tls(f, _) => f.codec.nextIndex <= |f.readBuf|
  }

  /** `From<TcpStream>`: a fresh socket framed with a default codec. */
  function FromTcp(socket: TcpStream): (inner: Inner)
    ensures inner.Tcp? && inner.tcp.io == socket
    ensures inner.tcp.codec == OpCodec(0)
    ensures inner.tcp.readBuf == [] && inner.tcp.writeBuf == []
    ensures WellFormed(inner) && FirstOp(inner) == None
  {
    Tcp(Framed(socket, OpCodec(0), [], []))
  }

  /** `first_op`: a copy of the pending frame; nothing is cleared. */
  function FirstOp(inner: Inner): (r: Option<Op>)
    ensures inner.Tcp? ==> r == None
    ensures inner.Tls? ==> r == inner.pending
  {
    match inner
    case Tcp(_) => None
    case Tls(_, op) => op
  }

  /** Run one framed operation on whichever stream the variant holds. */
  function Dispatch<R>(inner: Inner,
                       onTcp: Framed<TcpStream> -> (Result<R>, Framed<TcpStream>),
                       onTls: Framed<TlsStream> -> (Result<R>, Framed<TlsStream>)): (r: (Result<R>, Inner))
    ensures SameShape(inner, r.1)
    ensures inner.Tcp? ==> r == (onTcp(inner.tcp).0, Tcp(onTcp(inner.tcp).1))
    ensures inner.Tls? ==> r == (onTls(inner.tls).0, Tls(onTls(inner.tls).1, inner.pending))
  {
    match inner
    case Tcp(f) =>
      var (res, f') := onTcp(f);
      (res, Tcp(f'))
    case Tls(f, op) =>
      var (res, f') := onTls(f);
      (res, Tls(f', op))
  }

  /** `Sink::start_send`. */
  function StartSend(inner: Inner, item: Op, d: Driver): (r: (Result<AsyncSink>, Inner))
    ensures SameShape(inner, r.1) && FirstOp(r.1) == FirstOp(inner)
    ensures inner.Tcp? ==> r == (d.tcp.startSend(inner.tcp, item).0, Tcp(d.tcp.startSend(inner.tcp, item).1))
    ensures inner.Tls? ==> r.0 == d.tls.startSend(inner.tls, item).0 && r.1.tls == d.tls.startSend(inner.tls, item).1
  {
    Dispatch(inner, f => d.tcp.startSend(f, item), f => d.tls.startSend(f, item))
  }

  /** `Sink::poll_complete`. */
  function PollComplete(inner: Inner, d: Driver): (r: (Result<Async<()>>, Inner))
    ensures SameShape(inner, r.1) && FirstOp(r.1) == FirstOp(inner)
    ensures inner.Tcp? ==> r == (d.tcp.pollComplete(inner.tcp).0, Tcp(d.tcp.pollComplete(inner.tcp).1))
    ensures inner.Tls? ==> r.0 == d.tls.pollComplete(inner.tls).0 && r.1.tls == d.tls.pollComplete(inner.tls).1
  {
    Dispatch(inner, d.tcp.pollComplete, d.tls.pollComplete)
  }

  /** `Stream::poll`. */
  function Poll(inner: Inner, d: Driver): (r: (Result<Async<Option<Op>>>, Inner))
    ensures SameShape(inner, r.1) && FirstOp(r.1) == FirstOp(inner)
    ensures inner.Tcp? ==> r == (d.tcp.poll(inner.tcp).0, Tcp(d.tcp.poll(inner.tcp).1))
    ensures inner.Tls? ==> r.0 == d.tls.poll(inner.tls).0 && r.1.tls == d.tls.poll(inner.tls).1
  {
    Dispatch(inner, d.tcp.poll, d.tls.poll)
  }

  /** The framed stream rebuilt on `socket` from `before`'s parts: fresh codec,
      same unconsumed bytes in both directions. */
  predicate Transplanted(before: Framed<TcpStream>, socket: TlsStream, rebuilt: Framed<TlsStream>)
  {
    && rebuilt.io == socket
    && rebuilt.codec == OpCodec(0)
    && rebuilt.readBuf == before.readBuf
    && rebuilt.writeBuf == before.writeBuf
  }

  /**
   The step after the first read: a plain stream is taken apart, its socket
   goes through the handshake, and a TLS stream is rebuilt around the
   encrypted socket with the old buffers and the frame just read. Any other
   variant is returned as it is.
   */
  function UpgradeAfterFirstOp(host: string, op: Option<Op>, inner: Inner, cfg: TlsConfig,
                               handshake: (string, TcpStream, TlsConfig) -> Result<TlsStream>): (r: Result<Inner>)
    ensures !inner.Tcp? ==> r == Ok(inner)
    ensures inner.Tcp? ==> (r.Ok? <==> handshake(host, inner.tcp.io, cfg).Ok?)
    ensures inner.Tcp? && r.Err? ==> r.error == handshake(host, inner.tcp.io, cfg).error
    ensures inner.Tcp? && r.Ok? ==>
              && r.value.Tls?
              && r.value.pending == op
              && Transplanted(inner.tcp, handshake(host, inner.tcp.io, cfg).value, r.value.tls)
  {
    match inner
    case Tls(_, _) => Ok(inner)
    case Tcp(framed) =>
      match handshake(host, framed.io, cfg)
      case Err(e) => Err(e)
      case Ok(socket) => Ok(Tls(Framed(socket, OpCodec(0), framed.readBuf, framed.writeBuf), op))
  }

  /**
   `connect_and_upgrade_if_required`: open a plain stream; without a host name
   return it as it is; with one, read the server's first frame, then upgrade.
   */
  function ConnectAndUpgrade(host: Option<string>, addr: SocketAddr, cfg: TlsConfig, net: Network): (r: Result<Inner>)
    ensures net.connectTcp(addr).Err? ==> r == Err(net.connectTcp(addr).error)
    ensures net.connectTcp(addr).Ok? && host.None? ==> r == Ok(FromTcp(net.connectTcp(addr).value))
    ensures net.connectTcp(addr).Ok? && host.Some? ==>
              match net.firstFrame(FromTcp(net.connectTcp(addr).value).tcp)
              case ReadFailed(e) => r == Err(e)
              case Frame(op, rest) =>
                var shake := net.handshake(host.value, net.connectTcp(addr).value, cfg);
                && (r.Ok? <==> shake.Ok?)
                && (r.Err? ==> r.error == shake.error)
                && (r.Ok? ==> r.value.Tls? && r.value.pending == op && Transplanted(rest, shake.value, r.value.tls))
                && (r.Ok? ==> r.value.tls.io == shake.value)
  {
    match net.connectTcp(addr)
    case Err(e) => Err(e)
    case Ok(socket) =>
      var inner := FromTcp(socket);
      match host
      case None => Ok(inner)
      case Some(name) =>
        match net.firstFrame(inner.tcp)
        case ReadFailed(e) => Err(e)
        case Frame(op, rest) => UpgradeAfterFirstOp(name, op, Tcp(rest.(io := socket)), cfg, net.handshake)
  }

  /**
   Every transport set-up produces: a plain stream exactly when no host name
   is given, a TLS stream whose first frame is the one read before the
   upgrade otherwise, and in both cases a codec at cursor 0 that is
   well formed whatever bytes were carried over.
   */
  lemma ConnectedTransportIsFresh(host: Option<string>, addr: SocketAddr, cfg: TlsConfig, net: Network)
    requires ConnectAndUpgrade(host, addr, cfg, net).Ok?
    ensures var inner := ConnectAndUpgrade(host, addr, cfg, net).value;
            && (inner.Tcp? <==> host.None?)
            && WellFormed(inner)
            && (inner.Tcp? ==> inner.tcp.codec == OpCodec(0))
            && (inner.Tls? ==> inner.tls.codec == OpCodec(0))
            && (host.Some? ==> FirstOp(inner) == net.firstFrame(FromTcp(net.connectTcp(addr).value).tcp).op)
  {
  }
}

=== FILE: net.dfy ===
/**
 The two ways a connection comes into being: over plain TCP (`connect`) or
 over TCP upgraded to TLS after the server's first frame (`connect_tls`).
 */
module Net {
  import opened Base
  import opened TlsConfigs
  import opened ConnectionInner
  import opened Connection

  /** `connect`: a plain connection with default TLS material, no host name
      and no stored first frame. */
  function Connect(addr: SocketAddr, net: Network): (r: Result<NatsConnection>)
    ensures r.Ok? <==> net.connectTcp(addr).Ok?
    ensures r.Err? ==> r.error == net.connectTcp(addr).error
    ensures r.Ok? ==>
              && !r.value.isTls
              && r.value.addr == addr
              && r.value.host == None
              && r.value.firstOp == None
              && r.value.tlsConfig == Default
              && r.value.state == Connected
              && r.value.inner == FromTcp(net.connectTcp(addr).value)
  {
    match net.connectTcp(addr)
    case Err(e) => Err(e)
    case Ok(socket) =>
      Ok(NatsConnection(false, addr, None, None, Default, FromTcp(socket), Connected))
  }

  /** `connect_tls`: set up and upgrade the transport, then copy its pending
      first frame into the connection. */
  function ConnectTls(host: string, addr: SocketAddr, cfg: TlsConfig, net: Network): (r: Result<NatsConnection>)
    ensures r.Ok? <==> ConnectAndUpgrade(Some(host), addr, cfg, net).Ok?
    ensures r.Err? ==> r.error == ConnectAndUpgrade(Some(host), addr, cfg, net).error
    ensures r.Ok? ==>
              && r.value.isTls
              && r.value.addr == addr
              && r.value.host == Some(host)
              && r.value.tlsConfig == cfg
              && r.value.state == Connected
              && r.value.inner == ConnectAndUpgrade(Some(host), addr, cfg, net).value
              && r.value.firstOp == FirstOp(r.value.inner)
  {
    match ConnectAndUpgrade(Some(host), addr, cfg, net)
    case Err(e) => Err(e)
    case Ok(inner) =>
      Ok(NatsConnection(true, addr, Some(host), FirstOp(inner), cfg, inner, Connected))
  }

  /**
   A TLS connection stores exactly the frame the server sent before the
   upgrade (which may be none), sits on a TLS transport with a fresh codec,
   and keeps that frame through any sequence of calls and reconnections.
   */
  lemma TlsConnectionKeepsGreeting(host: string, addr: SocketAddr, cfg: TlsConfig, net: Network,
                                   events: seq<Event>, d: Driver)
    requires ConnectTls(host, addr, cfg, net).Ok?
    ensures var c := ConnectTls(host, addr, cfg, net).value;
            var greeting := net.firstFrame(FromTcp(net.connectTcp(addr).value).tcp).op;
            && c.inner.Tls?
            && WellFormed(c.inner)
            && c.firstOp == greeting
            && Run(c, events, d).firstOp == greeting
  {
    var c := ConnectTls(host, addr, cfg, net).value;
    ConnectedTransportIsFresh(Some(host), addr, cfg, net);
    RunKeepsIdentity(c, events, d);
  }
}

=== FILE: tls_config.dfy ===
/**
 The client's TLS material (`NatsClientTlsConfig`): an optional PKCS #12
 identity with its password and an optional DER root certificate. The
 builders validate their material eagerly, so a bad archive or certificate
 fails when the configuration is built, not at the first handshake.

 Parsing the material belongs to the TLS library and is a parameter here.
 */
module TlsConfigs {
  import opened Base

  /** A parsed client identity and a parsed certificate, as the TLS library hands them out. */
  datatype Identity = Identity(handle: nat)
  datatype Certificate = Certificate(handle: nat)

  /** The TLS library's parsers: a PKCS #12 archive with its password, and a DER certificate. */
  datatype TlsBackend = TlsBackend(
    pkcs12: (seq<byte>, string) -> Result<Identity>,
    der: seq<byte> -> Result<Certificate>)

  datatype TlsConfig = TlsConfig(identity: Option<(seq<byte>, string)>, rootCert: Option<seq<byte>>)

  /** The default configuration carries no material at all. */
  const Default: TlsConfig := TlsConfig(None, None)

  /** `identity()`: parse the stored archive, if any. */
  function IdentityOf(cfg: TlsConfig, tls: TlsBackend): (r: Result<Option<Identity>>)
    ensures cfg.identity.None? ==> r == Ok(None)
    ensures cfg.identity.Some? ==>
              var parsed := tls.pkcs12(cfg.identity.value.0, cfg.identity.value.1);
              (r.Ok? <==> parsed.Ok?)
              && (r.Ok? ==> r.value == Some(parsed.value))
              && (r.Err? ==> r.error == parsed.error)
  {
    match cfg.identity
    case None => Ok(None)
    case Some((bytes, password)) =>
      match tls.pkcs12(bytes, password)
      case Ok(identity) => Ok(Some(identity))
      case Err(e) => Err(e)
  }

  /** `root_cert()`: parse the stored certificate, if any. */
  function RootCertOf(cfg: TlsConfig, tls: TlsBackend): (r: Result<Option<Certificate>>)
    ensures cfg.rootCert.None? ==> r == Ok(None)
    ensures cfg.rootCert.Some? ==>
              var parsed := tls.der(cfg.rootCert.value);
              (r.Ok? <==> parsed.Ok?)
              && (r.Ok? ==> r.value == Some(parsed.value))
              && (r.Err? ==> r.error == parsed.error)
  {
    match cfg.rootCert
    case None => Ok(None)
    case Some(bytes) =>
      match tls.der(bytes)
      case Ok(cert) => Ok(Some(cert))
      case Err(e) => Err(e)
  }

  /** `pkcs12_identity`: store the archive and password, then validate them. */
  function Pkcs12Identity(cfg: TlsConfig, der: seq<byte>, password: string, tls: TlsBackend): (r: Result<TlsConfig>)
    ensures r.Ok? <==> tls.pkcs12(der, password).Ok?
    ensures r.Err? ==> r.error == tls.pkcs12(der, password).error
    ensures r.Ok? ==> r.value.identity == Some((der, password)) && r.value.rootCert == cfg.rootCert
    ensures r.Ok? ==> IdentityOf(r.value, tls) == Ok(Some(tls.pkcs12(der, password).value))
  {
    var stored := cfg.(identity := Some((der, password)));
    match IdentityOf(stored, tls)
    case Err(e) => Err(e)
    case Ok(_) => Ok(stored)
  }

  /** `root_cert_der`: store the certificate, then validate it. */
  function RootCertDer(cfg: TlsConfig, der: seq<byte>, tls: TlsBackend): (r: Result<TlsConfig>)
    ensures r.Ok? <==> tls.der(der).Ok?
    ensures r.Err? ==> r.error == tls.der(der).error
    ensures r.Ok? ==> r.value.rootCert == Some(der) && r.value.identity == cfg.identity
    ensures r.Ok? ==> RootCertOf(r.value, tls) == Ok(Some(tls.der(der).value))
  {
    var stored := cfg.(rootCert := Some(der));
    match RootCertOf(stored, tls)
    case Err(e) => Err(e)
    case Ok(_) => Ok(stored)
  }

  /** Both accessors succeed: the `identity().unwrap()` and `root_cert().unwrap()`
      of the TLS upgrade cannot panic. */
  predicate Validated(cfg: TlsConfig, tls: TlsBackend)
  {
    IdentityOf(cfg, tls).Ok? && RootCertOf(cfg, tls).Ok?
  }

  /** One builder call in a chain such as `default().pkcs12_identity(..)?.root_cert_der(..)?`. */
  datatype Setting = WithIdentity(der: seq<byte>, password: string) | WithRootCert(der: seq<byte>)

  function ApplySetting(cfg: TlsConfig, s: Setting, tls: TlsBackend): Result<TlsConfig>
  {
    match s
    case WithIdentity(der, password) => Pkcs12Identity(cfg, der, password, tls)
    case WithRootCert(der) => RootCertDer(cfg, der, tls)
  }

  /** The material of one builder call is rejected by its parser. */
  predicate Rejected(s: Setting, tls: TlsBackend)
  {
    match s
    case WithIdentity(der, password) => tls.pkcs12(der, password).Err?
    case WithRootCert(der) => tls.der(der).Err?
  }

  /** A chain of builder calls, stopping at the first error as `?` does. */
  function BuildFrom(cfg: TlsConfig, settings: seq<Setting>, tls: TlsBackend): Result<TlsConfig>
    decreases |settings|
  {
    if |settings| == 0 then Ok(cfg)
    else
      match ApplySetting(cfg, settings[0], tls)
      case Err(e) => Err(e)
      case Ok(next) => BuildFrom(next, settings[1..], tls)
  }

  /**
   Eager validation: a chain of builders fails exactly when one of its pieces
   of material is rejected, and every configuration it does produce is
   validated, so later `identity()` and `root_cert()` calls cannot fail.
   */
  lemma {:induction false} BuildersValidateEagerly(cfg: TlsConfig, settings: seq<Setting>, tls: TlsBackend)
    ensures BuildFrom(cfg, settings, tls).Err? <==> exists i :: 0 <= i < |settings| && Rejected(settings[i], tls)
    ensures Validated(cfg, tls) && BuildFrom(cfg, settings, tls).Ok? ==> Validated(BuildFrom(cfg, settings, tls).value, tls)
    decreases |settings|
  {
    if |settings| > 0 {
      match ApplySetting(cfg, settings[0], tls)
      case Err(e) =>
        assert Rejected(settings[0], tls);
      case Ok(next) =>
        assert !Rejected(settings[0], tls);
        BuildersValidateEagerly(next, settings[1..], tls);
        forall i | 0 <= i < |settings[1..]|
          ensures settings[1..][i] == settings[i + 1]
        {
        }
        if exists i :: 0 <= i < |settings| && Rejected(settings[i], tls) {
          var i :| 0 <= i < |settings| && Rejected(settings[i], tls);
          assert Rejected(settings[1..][i - 1], tls);
        }
    }
  }

  /** The default configuration is validated, so every chain started from it is. */
  lemma DefaultChainsValidate(settings: seq<Setting>, tls: TlsBackend)
    ensures BuildFrom(Default, settings, tls).Ok? ==> Validated(BuildFrom(Default, settings, tls).value, tls)
    ensures IdentityOf(Default, tls) == Ok(None) && RootCertOf(Default, tls) == Ok(None)
  {
    BuildersValidateEagerly(Default, settings, tls);
  }
}
